=== FILE: README.md ===
# Operation template creator — Dafny model

This project models the operation template creator of the API Management
DevOps resource kit's ARM template generator. The creator walks a parsed
OpenAPI document. For every path and every HTTP method declared on it, it
builds one `Microsoft.ApiManagement/service/apis/operations` template
record. Each record holds the method, the URL template, the template
parameters, a request (query parameters, headers, body representations) and
the responses. Sample and default values come from the example slots of
parameters, headers and media types, under a fixed precedence rule.

Layout:

- `Wrappers.dfy`: `Option` (C# null) and `Result` (value, or the fault an
  exception would raise).
- `Seqs.dfy`: the order-preserving `foreach` walk that stops at the first
  exception (`MapAll`, characterized by `MapAllSpec`), LINQ `Where`
  (`Filter`), and the lemmas that relate them.
- `OpenApi.dfy`: the parsed document. Dictionaries are sequences of pairs in
  enumeration order.
- `Templates.dfy`: the template records, the fixed constants, the faults and
  symbolic serialized text.
- `OperationTemplateCreator.dfy`: one function per method of the C# class,
  with the contracts of each.
- `OperationOrder.dfy`: the declared (path, method) list and the proof that
  the nested loops yield one template per entry, in order.
- `OperationProperties.dfy`: properties that relate operations to each
  other, and one concrete document.

Modelling decisions:

- `JsonConvert.SerializeObject` is kept symbolic. `Ser(v)` stands for "the
  serialized text of v", and nothing depends on the JSON text itself. The
  serializer's input is one of four things: a C# null, an `IOpenApiAny`
  value, a whole `OpenApiExample` object, or a string that is itself
  serialized text (the representation sample serializes the default value a
  second time).
- Exceptions become `Failure(fault)`, raised at the point where the C# code
  would throw. Object initializers run in field order, so faults come in the
  same order as in the source:
  - `MissingSchema`: a parameter or header without a schema
    (`OperationTemplateCreator.cs` lines 138 and 163).
  - `MissingExamples`: enumerating a null `Examples` map (line 182).
  - `AmbiguousExamples`: `SingleOrDefault` over more than one named example
    (line 201).
- Quirks of the code that the model keeps as written:
  - `CreateOperationResponses`: the loop at lines 60-69 builds each
    response record but never adds it to the list, so the list it returns
    is always empty. Because each record is still built, a fault inside any
    of them is still raised.
  - The default value: the comment at line 200 says the first example is
    used, but line 201 calls `SingleOrDefault`. The model therefore takes
    the *single* named example. An empty map gives the serialization of
    null, and more than one entry is a fault.
  - For a form content type whose media type has no schema,
    `formParameters` keeps the null it was initialised with (lines 91 and
    94-97), not an empty list.
  - A representation's `sample` is never null. It is the serialization of
    the default value, and a null default serializes to the text of null.

## Model

| member | source | states |
|---|---|---|
| OperationTemplateCreator.SingleOrDefault | src/APIM_ARMTemplate/apimtemplate/TemplateCreators/OperationTemplateCreator.cs:201 | LINQ `SingleOrDefault`: faults exactly when there is more than one entry; otherwise gives the sole entry, or nothing for an empty map |
| OperationTemplateCreator.ParameterValues | src/APIM_ARMTemplate/apimtemplate/TemplateCreators/OperationTemplateCreator.cs:173-188 | faults exactly when the named-examples map is null (even with a single example); otherwise its length is one for a single example plus one per named example; the serialized single example comes first, then each named example in map order |
| OperationTemplateCreator.ParameterDefaultValue | src/APIM_ARMTemplate/apimtemplate/TemplateCreators/OperationTemplateCreator.cs:190-207 | precedence: a single example wins whatever the named examples hold; otherwise a non-null map gives the serialization of its sole entry, the serialized null when empty, and a fault when it has more than one entry; with neither, null |
| OperationTemplateCreator.ParameterRecord | src/APIM_ARMTemplate/apimtemplate/TemplateCreators/OperationTemplateCreator.cs:159-167 | succeeds exactly when the schema is present and the example slot resolves; the fault order is missing schema, then null examples, then ambiguous default; name, description, schema type and required flag are copied, and the values and default come from the example slot |
| OperationTemplateCreator.TemplateParameters | src/APIM_ARMTemplate/apimtemplate/TemplateCreators/OperationTemplateCreator.cs:148-171 | succeeds exactly when every parameter maps, and otherwise fails with the fault of the first parameter that does not; then one record per parameter, in order, copying that parameter's name, description, schema type and required flag, with values and default from its examples |
| OperationTemplateCreator.ResponseHeaders | src/APIM_ARMTemplate/apimtemplate/TemplateCreators/OperationTemplateCreator.cs:123-146 | succeeds exactly when every header maps, and otherwise fails with the fault of the first header that does not; then one record per header, in map order, named by its key, with the header's description, schema type and required flag |
| OperationTemplateCreator.FormParameters | src/APIM_ARMTemplate/apimtemplate/TemplateCreators/OperationTemplateCreator.cs:104-121 | no schema example gives an empty, non-null list; otherwise, as the code evidently intends (see "Left out"), one field per example key, in order: named by the key, required exactly when the key is among the schema's required fields, default the serialized value, every other field null |
| OperationTemplateCreator.RepresentationOf | src/APIM_ARMTemplate/apimtemplate/TemplateCreators/OperationTemplateCreator.cs:76-98 | (form example as intended, see "Left out") faults only on an ambiguous default; content type is the key; sample is the serialized default (never null); schema id is null; type name is the schema type, or null without a schema; form parameters are present exactly when a schema is present and the key is one of the two form content types |
| OperationTemplateCreator.Representations | src/APIM_ARMTemplate/apimtemplate/TemplateCreators/OperationTemplateCreator.cs:73-102 | (form example as intended, see "Left out") succeeds exactly when every media type's default resolves, and otherwise fails with the fault of the first entry that does not; then one representation per content entry, in order, with the per-entry fields listed for RepresentationOf |
| OperationTemplateCreator.OperationResponses | src/APIM_ARMTemplate/apimtemplate/TemplateCreators/OperationTemplateCreator.cs:57-71 | as written: succeeds exactly when every status code's record builds, and the list returned is then always empty |
| OperationTemplateCreator.OperationRequest | src/APIM_ARMTemplate/apimtemplate/TemplateCreators/OperationTemplateCreator.cs:43-55 | (form example as intended, see "Left out") succeeds exactly when every query and header parameter maps and the body (if any) can be represented; description and representations are both null without a body, otherwise the body's description and its representations; query parameters and headers are the records of the parameters filtered by location query and header |
| OperationTemplateCreator.OperationTemplateOf | src/APIM_ARMTemplate/apimtemplate/TemplateCreators/OperationTemplateCreator.cs:18-36 | (form example as intended, see "Left out") succeeds exactly when all parameters map, all responses build and the body can be represented, and reports a parameter fault first; name is the operation id; the resource type and API version are constants; method is the method's name; the URL template is the path key; description and display name come from the operation; responses are empty; policies are null |
| OperationTemplateCreator.ResponseOf | src/APIM_ARMTemplate/apimtemplate/TemplateCreators/OperationTemplateCreator.cs:62-68 | (form example as intended, see "Left out") the record for one status code: succeeds exactly when every header maps and every content entry's default resolves; a header fault is reported before a representation fault; status code is the key, description the response's, one header record per header named by its key, one representation per content entry with its content type |
| OperationTemplateCreator.OperationTemplates | src/APIM_ARMTemplate/apimtemplate/TemplateCreators/OperationTemplateCreator.cs:11-41 | `CreateOperationTemplates`: succeeds exactly when the template of every declared method of every path builds; the count, order and fields of the templates are stated by OperationOrder.OperationTemplatesOnePerDeclaredMethod and OperationOrder.PathsTemplatesFlat |
| OperationTemplateCreator.PathsTemplatesSucceed | src/APIM_ARMTemplate/apimtemplate/TemplateCreators/OperationTemplateCreator.cs:14-37 | the nested path and method loops succeed exactly when the template of every method of every path builds |
| OperationOrder.DeclaredInPathMajor | src/APIM_ARMTemplate/apimtemplate/TemplateCreators/OperationTemplateCreator.cs:14-16 | the declared (path, method) list holds method k of path j at one position, positions increase in (path, method) order, and every position is some declared method |
| OperationOrder.OperationTemplatesOnePerDeclaredMethod | src/APIM_ARMTemplate/apimtemplate/TemplateCreators/OperationTemplateCreator.cs:11-41 | the nested loops succeed exactly when every declared method builds; they then yield one template per declared (path, method) pair, as many as there are declared methods, in declared order; each is exactly the template built for the declared pair at its position, so it carries that operation's id, path key, method name, description, display name, template parameters and request, the fixed constants and no policies |
| OperationOrder.PathsTemplatesFlat | src/APIM_ARMTemplate/apimtemplate/TemplateCreators/OperationTemplateCreator.cs:14-37 | the nested path/method loops equal a single walk over the declared (path, method) list, faults included |
| OperationProperties.DefaultIsFirstValue | src/APIM_ARMTemplate/apimtemplate/TemplateCreators/OperationTemplateCreator.cs:173-207 | when the values and the default both build, the default is the first value; with no values it is the serialized null |
| OperationProperties.DefaultNullOnlyWithoutExamples | src/APIM_ARMTemplate/apimtemplate/TemplateCreators/OperationTemplateCreator.cs:190-207 | the default value is null exactly when there is neither a single example nor a named-examples map |
| OperationProperties.RequestViewsOfTemplateParameters | src/APIM_ARMTemplate/apimtemplate/TemplateCreators/OperationTemplateCreator.cs:49-51 | the request's query parameters and headers are the operation's template parameter records selected by location query and header, in order (a built template carries both lists); both are subsequences of the template parameters and together no longer than them |
| OperationProperties.ResponseHeadersAsParameters | src/APIM_ARMTemplate/apimtemplate/TemplateCreators/OperationTemplateCreator.cs:123-171 | a response header map produces the same records and faults as the parameter list with the same fields, named by the header keys |
| OperationProperties.OperationResponsesDropsBuiltRecords | src/APIM_ARMTemplate/apimtemplate/TemplateCreators/OperationTemplateCreator.cs:57-71 | when every response builds, one record per status code, carrying that status code, is built, yet the returned list is empty, so any non-empty response map loses records |
| OperationProperties.RepresentationSamplesNeverNull | src/APIM_ARMTemplate/apimtemplate/TemplateCreators/OperationTemplateCreator.cs:87 | every representation's sample is non-null: the serialized null when the media type has a null examples map, the twice-serialized null when the map is empty, and the twice-serialized single example or sole named example otherwise |
| OperationProperties.FormParametersOnlyForFormBodies | src/APIM_ARMTemplate/apimtemplate/TemplateCreators/OperationTemplateCreator.cs:90-97 | form parameters are null for non-form content types, even with a schema example, and null without a schema; a form type with a schema but no example gets an empty list; with an example it gets one field per key |
| OperationProperties.SingleGetOperation | src/APIM_ARMTemplate/apimtemplate/TemplateCreators/OperationTemplateCreator.cs:11-41 | one path, one GET, one query parameter "limit" with example 5 and one response "200": one template with method "Get", one template parameter "limit" whose default is the serialized 5, the same record as the only query parameter, no headers, no body representations, and no responses |

## Left out

- JSON serialization (Newtonsoft `JsonConvert.SerializeObject`) is a foreign library. Its text is kept symbolic as `Ser(v)`.
- The Microsoft.OpenApi object model is reduced to the fields the creator reads. `IOpenApiAny` is reduced to a tree of six kinds (null, boolean, integer, string, array and object); its other kinds (long, float, double, byte, binary, date, date-time, password) are left out, because an example value only ever reaches the serializer. `OperationType.ToString()` is the enum member's name.
- The cast of a schema example to `Dictionary<string, OperationSchemaExample>` (line 109) is not modelled. The form example is held directly as a key/value sequence.
- OperationTemplateCreator.FormParameters: describes what the code evidently intends, not what it does. A parsed schema example is an `IOpenApiAny` (an object example is an `OpenApiObject`, a `Dictionary<string, IOpenApiAny>`), so the `as` cast at line 109 always yields null. As written, `CreateFormParameters` therefore throws at line 109 whenever a form body's schema has an example. The model instead gives one field per example key.
- OperationTemplateCreator.RepresentationOf: its success condition assumes the form-example cast at line 109 works as intended. As written, a form content type whose schema has an example makes `CreateFormParameters` throw a NullReferenceException there. That exception escapes `CreateRepresentations`, `CreateOperationRequest`, `CreateOperationResponses` and the whole `CreateOperationTemplates` call, while the model succeeds on such input.
- OperationTemplateCreator.Representations: succeeds on a form content entry whose schema has an example, where the code as written throws at line 109 (see the `RepresentationOf` line).
- OperationTemplateCreator.ResponseOf: its content condition lets a form content entry whose schema has an example succeed, where the code as written throws at line 109 (see the `RepresentationOf` line).
- OperationTemplateCreator.OperationRequest: `BodyRepresentable` lets a form body whose schema has an example succeed, where the code as written throws at line 109 (see the `RepresentationOf` line).
- OperationTemplateCreator.OperationTemplateOf: its success condition inherits, through `BodyRepresentable` and `ResponsesBuildable`, success on a form body whose schema has an example, where the code as written throws at line 109 (see the `RepresentationOf` line).
- OperationProperties.FormParametersOnlyForFormBodies: its with-example case gives one field per key, where the code as written throws at line 109 (see the `FormParameters` line).
- Collections the OpenAPI parser always allocates are assumed non-null: paths, operations, parameter lists, content, header and response maps, and the required-field list. Only `Examples` may be null, because the creator tests it.
- Fault payloads (exception messages, stack traces) are not modelled. A fault names only its kind.
- The template classes (`OperationTemplate` and the others) are not part of this model. The records hold the fields this file assigns. The policies field's type is left as an optional string, because only null is ever stored there.
- A response list that actually collects the built records does not exist in the code, so it is not modelled.
- Document loading, file writing, command-line handling and deployment are I/O outside the creator.

=== FILE: OpenApi.dfy ===
/** The parts of a parsed OpenAPI document that the operation template creator
    reads. C# dictionaries become sequences of key/value pairs in enumeration
    order; a nullable reference becomes an `Option`. Collections the parser
    always allocates (parameter lists, content, header and response maps, the
    required-field list) are plain sequences. */
module OpenApi {
  import opened Wrappers

  /** An `IOpenApiAny` example value: a JSON-shaped tree. */
  datatype Any =
    | AnyNull
    | AnyBoolean(b: bool)
    | AnyInteger(i: int)
    | AnyString(s: string)
    | AnyArray(items: seq<Any>)
    | AnyObject(members: seq<(string, Any)>)

  /** An `OpenApiExample`: one named example of the `examples` maps. */
  datatype Example = Example(
    summary: Option<string>,
    description: Option<string>,
    value: Option<Any>,
    externalValue: Option<string>)

  /** The named examples of a parameter, header or media type; the map itself
      may be null. */
  type Examples = Option<seq<(string, Example)>>

  /** An `OpenApiSchema`, reduced to what the creator reads. The form example
      is kept directly as the field-name to value map that the creator expects
      to find there. */
  datatype Schema = Schema(
    schemaType: Option<string>,
    required: seq<string>,
    example: Option<seq<(string, Any)>>)

  /** `ParameterLocation`; a parameter's location may be null. */
  datatype Location = Query | Header | Path | Cookie

  datatype Parameter = Parameter(
    name: Option<string>,
    location: Option<Location>,
    description: Option<string>,
    required: bool,
    schema: Option<Schema>,
    example: Option<Any>,
    examples: Examples)

  datatype Header = Header(
    description: Option<string>,
    required: bool,
    schema: Option<Schema>,
    example: Option<Any>,
    examples: Examples)

  datatype MediaType = MediaType(
    schema: Option<Schema>,
    example: Option<Any>,
    examples: Examples)

  /** A content map: content type to media type. */
  type Content = seq<(string, MediaType)>

  datatype RequestBody = RequestBody(description: Option<string>, content: Content)

  datatype Response = Response(
    description: Option<string>,
    headers: seq<(string, Header)>,
    content: Content)

  datatype Operation = Operation(
    operationId: Option<string>,
    summary: Option<string>,
    description: Option<string>,
    parameters: seq<Parameter>,
    requestBody: Option<RequestBody>,
    responses: seq<(string, Response)>)

  /** `OperationType`: the HTTP methods a path item may declare. */
  datatype Method = Get | Put | Post | Delete | Options | Head | Patch | Trace

  /** `OperationType.ToString()`: the enum member's name. */
  function MethodName(m: Method): string {
    match m
    case Get => "Get"
    case Put => "Put"
    case Post => "Post"
    case Delete => "Delete"
    case Options => "Options"
    case Head => "Head"
    case Patch => "Patch"
    case Trace => "Trace"
  }

  datatype PathItem = PathItem(operations: seq<(Method, Operation)>)

  datatype Document = Document(paths: seq<(string, PathItem)>)
}

=== FILE: OperationOrder.dfy ===
/** The declared (path, method) pairs of a document in enumeration order, and
    the proof that `OperationTemplates` builds exactly one template per pair,
    in that order. */
module OperationOrder {
  import opened Wrappers
  import opened OpenApi
  import opened Templates
  import opened Seqs
  import opened OperationTemplateCreator

  /** One declared method: its path key, the method and the operation. */
  type Declared = (string, Method, Operation)

  /** The declared methods of one path, in declaration order. */
  function DeclaredOn(path: string, item: PathItem): (r: seq<Declared>)
    ensures |r| == |item.operations|
  {
    seq(|item.operations|, k requires 0 <= k < |item.operations| =>
      (path, item.operations[k].0, item.operations[k].1))
  }

  /** Every declared method of every path: paths in order, methods in order
      within a path. */
  function DeclaredIn(paths: seq<(string, PathItem)>): seq<Declared> {
    if |paths| == 0 then []
    else DeclaredOn(paths[0].0, paths[0].1) + DeclaredIn(paths[1..])
  }

  /** The number of declared methods over the given paths. */
  function MethodCount(paths: seq<(string, PathItem)>): nat {
    if |paths| == 0 then 0
    else |paths[0].1.operations| + MethodCount(paths[1..])
  }

  /** Where the templates of path `j` start: after the methods of all
      earlier paths. */
  function Offset(paths: seq<(string, PathItem)>, j: nat): (n: nat)
    requires j <= |paths|
    ensures j < |paths| ==> n + |paths[j].1.operations| <= MethodCount(paths)
  {
    if j == 0 then 0
    else |paths[0].1.operations| + Offset(paths[1..], j - 1)
  }

  /** Method `k` of path `j` is declared. */
  predicate IsMethodOf(paths: seq<(string, PathItem)>, j: nat, k: nat) {
    j < |paths| && k < |paths[j].1.operations|
  }

  /** The position of method `k` of path `j` in the declared list. */
  function Position(paths: seq<(string, PathItem)>, j: nat, k: nat): (i: nat)
    requires IsMethodOf(paths, j, k)
    ensures i < MethodCount(paths)
  {
    Offset(paths, j) + k
  }

  /** The (path, method) indices of position `i` of the declared list: the
      inverse of `Position`. */
  function Locate(paths: seq<(string, PathItem)>, i: nat): (jk: (nat, nat))
    requires i < MethodCount(paths)
    ensures IsMethodOf(paths, jk.0, jk.1)
    ensures Position(paths, jk.0, jk.1) == i
  {
    if i < |paths[0].1.operations| then (0, i)
    else
      var jk := Locate(paths[1..], i - |paths[0].1.operations|);
      (jk.0 + 1, jk.1)
  }

  function TemplateOfDeclared(d: Declared): Outcome<OperationTemplate> {
    OperationTemplateOf(d.0, d.1, d.2)
  }

  /** The template copies the operation's identifier, path key and method name
      and carries the fixed resource type and API version and no policies. */
  predicate TemplateMatches(t: OperationTemplate, d: Declared) {
    && t.name == d.2.operationId
    && t.properties.urlTemplate == d.0
    && t.properties.httpMethod == MethodName(d.1)
    && t.resourceType == OperationResourceType
    && t.apiVersion == OperationApiVersion
    && t.properties.policies.None?
  }

  lemma {:induction false} DeclaredInLength(paths: seq<(string, PathItem)>)
    ensures |DeclaredIn(paths)| == MethodCount(paths)
  {
    if |paths| > 0 {
      DeclaredInLength(paths[1..]);
    }
  }

  /** Method `k` of path `j` sits at `Offset(paths, j) + k` of the declared
      list. */
  lemma {:induction false} DeclaredInAt(paths: seq<(string, PathItem)>, j: nat, k: nat)
    requires j < |paths| && k < |paths[j].1.operations|
    ensures |DeclaredIn(paths)| == MethodCount(paths)
    ensures DeclaredIn(paths)[Offset(paths, j) + k] ==
              (paths[j].0, paths[j].1.operations[k].0, paths[j].1.operations[k].1)
  {
    DeclaredInLength(paths);
    var head := DeclaredOn(paths[0].0, paths[0].1);
    if j > 0 {
      DeclaredInAt(paths[1..], j - 1, k);
      assert DeclaredIn(paths) == head + DeclaredIn(paths[1..]);
    }
  }

  /** Offsets follow path order: every method of an earlier path comes before
      every method of a later one. */
  lemma {:induction false} OffsetOrder(paths: seq<(string, PathItem)>, j: nat, j': nat)
    requires j < j' <= |paths|
    ensures Offset(paths, j) + |paths[j].1.operations| <= Offset(paths, j')
  {
    if j > 0 {
      OffsetOrder(paths[1..], j - 1, j' - 1);
    }
  }

  /** The nested loops build the same list as one walk over the declared
      methods. */
  lemma {:induction false} PathsTemplatesFlat(paths: seq<(string, PathItem)>)
    ensures PathsTemplates(paths) == MapAll(TemplateOfDeclared, DeclaredIn(paths))
  {
    if |paths| > 0 {
      var path, item := paths[0].0, paths[0].1;
      MapAllPointwise((entry: (Method, Operation)) => OperationTemplateOf(path, entry.0, entry.1), item.operations,
                      TemplateOfDeclared, DeclaredOn(path, item));
      PathsTemplatesFlat(paths[1..]);
      if PathTemplates(path, item).Success? {
        MapAllAppendSuccess(TemplateOfDeclared, DeclaredOn(path, item), DeclaredIn(paths[1..]));
      } else {
        MapAllAppendFailure(TemplateOfDeclared, DeclaredOn(path, item), DeclaredIn(paths[1..]));
      }
    }
  }

  /** The declared list holds every method of every path exactly once, path
      by path and in declaration order within a path: method `k` of path `j`
      is at `Position(paths, j, k)`, positions increase in (path, method)
      order, and every position is the position of a declared method. */
  lemma DeclaredInPathMajor(paths: seq<(string, PathItem)>)
    ensures |DeclaredIn(paths)| == MethodCount(paths)
    ensures forall j: nat, k: nat :: IsMethodOf(paths, j, k) ==>
              DeclaredIn(paths)[Position(paths, j, k)] ==
                (paths[j].0, paths[j].1.operations[k].0, paths[j].1.operations[k].1)
    ensures forall j: nat, k: nat, j': nat, k': nat ::
              IsMethodOf(paths, j, k) && IsMethodOf(paths, j', k') && (j < j' || (j == j' && k < k')) ==>
              Position(paths, j, k) < Position(paths, j', k')
    ensures forall i :: 0 <= i < |DeclaredIn(paths)| ==>
              var jk := Locate(paths, i);
              DeclaredIn(paths)[i] ==
                (paths[jk.0].0, paths[jk.0].1.operations[jk.1].0, paths[jk.0].1.operations[jk.1].1)
  {
    DeclaredInLength(paths);
    forall j: nat, k: nat | IsMethodOf(paths, j, k)
      ensures DeclaredIn(paths)[Position(paths, j, k)] ==
                (paths[j].0, paths[j].1.operations[k].0, paths[j].1.operations[k].1)
    {
      DeclaredInAt(paths, j, k);
    }
    forall j: nat, k: nat, j': nat, k': nat |
      IsMethodOf(paths, j, k) && IsMethodOf(paths, j', k') && j < j'
      ensures Position(paths, j, k) < Position(paths, j', k')
    {
      OffsetOrder(paths, j, j');
    }
  }

  /** `CreateOperationTemplates` succeeds exactly when every declared method
      builds, and then yields one template per declared (path, method) pair,
      in the order of the declared list: at each position, exactly the
      template built for the pair at that position of the declared list. */
  lemma OperationTemplatesOnePerDeclaredMethod(doc: Document)
    ensures OperationTemplates(doc).Success? <==>
              forall i :: 0 <= i < |DeclaredIn(doc.paths)| ==> TemplateOfDeclared(DeclaredIn(doc.paths)[i]).Success?
    ensures OperationTemplates(doc).Success? ==> |OperationTemplates(doc).value| == MethodCount(doc.paths)
    ensures OperationTemplates(doc).Success? ==>
      forall i :: 0 <= i < |OperationTemplates(doc).value| ==>
        && i < |DeclaredIn(doc.paths)|
        && TemplateOfDeclared(DeclaredIn(doc.paths)[i]) == Success(OperationTemplates(doc).value[i])
        && TemplateMatches(OperationTemplates(doc).value[i], DeclaredIn(doc.paths)[i])
  {
    PathsTemplatesFlat(doc.paths);
    DeclaredInLength(doc.paths);
    MapAllSpec(TemplateOfDeclared, DeclaredIn(doc.paths));
  }
}

=== FILE: OperationProperties.dfy ===
/** Properties relating the creator's operations to each other: the default
    value against the values list, the request's query and header lists
    against the template parameters, response headers against parameters,
    the response list as written, and the representations' samples and form
    parameters. */
module OperationProperties {
  import opened Wrappers
  import opened OpenApi
  import opened Templates
  import opened Seqs
  import opened OperationTemplateCreator

  /** Whenever both can be built, the default value is the first entry of the
      values list; when that list is empty, the default is the serialized
      null rather than null. */
  lemma DefaultIsFirstValue(slot: ExampleSlot)
    requires SlotResolvable(slot)
    ensures ParameterValues(slot).Success? && ParameterDefaultValue(slot).Success?
    ensures |ParameterValues(slot).value| > 0 ==>
              ParameterDefaultValue(slot).value == Some(ParameterValues(slot).value[0])
    ensures |ParameterValues(slot).value| == 0 ==>
              ParameterDefaultValue(slot).value == Some(Ser(Null))
  {
  }

  /** The default value is null only when there is neither a single example
      nor a named-examples map. */
  lemma DefaultNullOnlyWithoutExamples(slot: ExampleSlot)
    requires ParameterDefaultValue(slot).Success?
    ensures ParameterDefaultValue(slot).value.None? <==> slot.example.None? && slot.examples.None?
  {
  }

  /** The request's query parameters and headers are the template
      parameters restricted to location query and to location header, in
      the same order; both are subsequences of the template parameters and
      together no longer than them. A built template holds exactly these
      two lists (see `OperationTemplateOf`). */
  lemma RequestViewsOfTemplateParameters(op: Operation)
    requires TemplateParameters(op.parameters).Success?
    requires OperationRequest(op).Success?
    ensures var tp := TemplateParameters(op.parameters).value;
      var request := OperationRequest(op).value;
      && request.queryParameters == Select(InLocation(Location.Query), op.parameters, tp)
      && request.headers == Select(InLocation(Location.Header), op.parameters, tp)
      && IsSubsequence(request.queryParameters, tp)
      && IsSubsequence(request.headers, tp)
      && |request.queryParameters| + |request.headers| <= |tp|
  {
    var tp := TemplateParameters(op.parameters).value;
    assert MapAll(TemplateParameterOf, op.parameters) == TemplateParameters(op.parameters);
    MapAllFilter(TemplateParameterOf, InLocation(Location.Query), op.parameters);
    MapAllFilter(TemplateParameterOf, InLocation(Location.Header), op.parameters);
    SelectIsSubsequence(InLocation(Location.Query), op.parameters, tp);
    SelectIsSubsequence(InLocation(Location.Header), op.parameters, tp);
    SelectDisjointLength(InLocation(Location.Query), InLocation(Location.Header), op.parameters, tp);
  }

  /** A response header viewed as a parameter: named by its key, with no
      location. */
  function HeaderAsParameter(entry: (string, Header)): Parameter {
    Parameter(Some(entry.0), None, entry.1.description, entry.1.required, entry.1.schema,
              entry.1.example, entry.1.examples)
  }

  /** Response headers map exactly as parameters with the same fields do:
      same records, same faults. */
  lemma {:induction false} ResponseHeadersAsParameters(headers: seq<(string, Header)>)
    ensures ResponseHeaders(headers) ==
              TemplateParameters(seq(|headers|, i requires 0 <= i < |headers| => HeaderAsParameter(headers[i])))
  {
    var ps := seq(|headers|, i requires 0 <= i < |headers| => HeaderAsParameter(headers[i]));
    MapAllPointwise(ResponseHeaderOf, headers, TemplateParameterOf, ps);
  }

  /** As written, the response list is empty for every response map that
      builds, although one record per status code was built: with at least
      one status code, records are lost. */
  lemma OperationResponsesDropsBuiltRecords(responses: seq<(string, Response)>)
    requires ResponsesBuildable(responses)
    ensures MapAll(ResponseOf, responses).Success?
    ensures |MapAll(ResponseOf, responses).value| == |responses|
    ensures forall i :: 0 <= i < |responses| ==>
              MapAll(ResponseOf, responses).value[i].statusCode == responses[i].0
    ensures OperationResponses(responses) == Success([])
    ensures |responses| > 0 ==> |OperationResponses(responses).value| < |MapAll(ResponseOf, responses).value|
  {
    MapAllSpec(ResponseOf, responses);
  }

  /** Every representation's sample is non-null: it is the serialization of
      the default value. A null examples map gives a null default, which
      serializes to the text of null; an empty map, the usual parsed case,
      gives the serialized null as default, which is serialized once more; a
      single example or a sole named example is serialized twice. */
  lemma RepresentationSamplesNeverNull(content: Content)
    requires Representations(content).Success?
    ensures forall i :: 0 <= i < |content| ==>
      var rep := Representations(content).value[i];
      var slot := MediaTypeSlot(content[i].1);
      && rep.sample.Some?
      && (slot.example.None? && slot.examples.None? ==> rep.sample == Some(Ser(Null)))
      && (slot.example.Some? ==> rep.sample == Some(Ser(TextValue(Ser(AnyValue(slot.example.value))))))
      && (slot.example.None? && slot.examples == Some([]) ==> rep.sample == Some(Ser(TextValue(Ser(Null)))))
      && (slot.example.None? && slot.examples.Some? && |slot.examples.value| == 1 ==>
            rep.sample == Some(Ser(TextValue(Ser(ExampleObject(slot.examples.value[0].1))))))
  {
  }

  /** Form parameters appear only on form bodies: a content type other than
      the two form types gets none even with a schema that has an example,
      and a form type with a schema but no example gets an empty list, not
      null. A form type without a schema gets none. */
  lemma FormParametersOnlyForFormBodies(content: Content)
    requires Representations(content).Success?
    ensures forall i :: 0 <= i < |content| ==>
      var rep := Representations(content).value[i];
      var (contentType, media) := content[i];
      && (!IsFormContentType(contentType) ==> rep.formParameters.None?)
      && (media.schema.None? ==> rep.formParameters.None?)
      && (IsFormContentType(contentType) && media.schema.Some? && media.schema.value.example.None? ==>
            rep.formParameters == Some([]))
      && (IsFormContentType(contentType) && media.schema.Some? && media.schema.value.example.Some? ==>
            rep.formParameters.Some?
            && |rep.formParameters.value| == |media.schema.value.example.value|)
  {
  }

  /** A single path with one GET operation, one optional query parameter
      "limit" with example 5 and one response "200" without content yields one
      template: method "Get", one template parameter "limit" whose default is
      the serialized 5, the same single record as query parameter, no request
      body, and, as written, no responses. */
  lemma SingleGetOperation()
    ensures
      var limit := Parameter(Some("limit"), Some(Location.Query), None, false,
                             Some(Schema(Some("integer"), [], None)), Some(AnyInteger(5)), Some([]));
      var op := Operation(Some("listItems"), None, None, [limit], None, [("200", Response(Some("OK"), [], []))]);
      var doc := Document([("/items", PathItem([(Get, op)]))]);
      var r := OperationTemplates(doc);
      && r.Success?
      && |r.value| == 1
      && r.value[0].name == Some("listItems")
      && r.value[0].properties.httpMethod == "Get"
      && r.value[0].properties.urlTemplate == "/items"
      && |r.value[0].properties.templateParameters| == 1
      && r.value[0].properties.templateParameters[0].name == Some("limit")
      && r.value[0].properties.templateParameters[0].defaultValue == Some(Ser(AnyValue(AnyInteger(5))))
      && r.value[0].properties.request.queryParameters == r.value[0].properties.templateParameters
      && r.value[0].properties.request.headers == []
      && r.value[0].properties.request.representations.None?
      && r.value[0].properties.responses == []
  {
  }
}

=== FILE: OperationTemplateCreator.dfy ===
/** The operation template creator: walks a parsed OpenAPI document and builds
    one operation template record per declared (path, method) pair, with its
    template parameters, request, responses and representations. Every
    function is pure; an exception the C# code would throw is a `Failure`
    carrying the matching `Fault`, raised at the same point of the walk. */
module OperationTemplateCreator {
  import opened Wrappers
  import opened OpenApi
  import opened Templates
  import opened Seqs

  /** `OpenApiParameterHeaderIntersection`: the example slot shared by
      parameters, headers and media types. */
  datatype ExampleSlot = ExampleSlot(example: Option<Any>, examples: Examples)

  function ParameterSlot(p: Parameter): ExampleSlot {
    ExampleSlot(p.example, p.examples)
  }

  function HeaderSlot(h: Header): ExampleSlot {
    ExampleSlot(h.example, h.examples)
  }

  function MediaTypeSlot(m: MediaType): ExampleSlot {
    ExampleSlot(m.example, m.examples)
  }

  // ---------------------------------------------------------------------------
  // Example resolution

  /** Where the named examples start in the values list: after the single
      example, when there is one. */
  function NamedOffset(slot: ExampleSlot): nat {
    if slot.example.Some? then 1 else 0
  }

  /** The default value can be chosen without a fault: `SingleOrDefault` is
      only reached, and only throws, when there is no single example and more
      than one named example. */
  predicate DefaultResolvable(slot: ExampleSlot) {
    slot.example.Some? || slot.examples.None? || |slot.examples.value| <= 1
  }

  /** Both the values list and the default value can be built without a
      fault: the named-examples map must not be null for the enumeration. */
  predicate SlotResolvable(slot: ExampleSlot) {
    slot.examples.Some? && DefaultResolvable(slot)
  }

  /** LINQ `SingleOrDefault` over a map: no entry gives the default (none),
      one entry gives that entry, more than one throws. */
  function SingleOrDefault<A>(xs: seq<A>): (r: Outcome<Option<A>>)
    ensures r.Failure? <==> |xs| > 1
    ensures r.Failure? ==> r.error == AmbiguousExamples
    ensures r.Success? && r.value.Some? ==> |xs| == 1 && r.value.value == xs[0]
    ensures r.Success? && r.value.None? ==> |xs| == 0
  {
    if |xs| == 0 then Success(None)
    else if |xs| == 1 then Success(Some(xs[0]))
    else Failure(AmbiguousExamples)
  }

  /** `CreateParameterValues`: the serialized single example, then the
      serialized named examples in map order. */
  function ParameterValues(slot: ExampleSlot): (r: Outcome<seq<Json>>)
    ensures r.Failure? <==> slot.examples.None?
    ensures r.Failure? ==> r.error == MissingExamples
    ensures r.Success? ==> |r.value| == NamedOffset(slot) + |slot.examples.value|
    ensures r.Success? && slot.example.Some? ==> r.value[0] == Ser(AnyValue(slot.example.value))
    ensures r.Success? ==>
      forall k :: 0 <= k < |slot.examples.value| ==>
        r.value[NamedOffset(slot) + k] == Ser(ExampleObject(slot.examples.value[k].1))
  {
    var lead := if slot.example.Some? then [Ser(AnyValue(slot.example.value))] else [];
    match slot.examples
    case None => Failure(MissingExamples)
    case Some(named) =>
      Success(lead + seq(|named|, k requires 0 <= k < |named| => Ser(ExampleObject(named[k].1))))
  }

  /** `CreateParameterDefaultValue`: the single example wins; failing that,
      the sole named example (or the serialized null the default entry holds
      when the map is empty); with neither, null. */
  function ParameterDefaultValue(slot: ExampleSlot): (r: Outcome<Option<Json>>)
    ensures slot.example.Some? ==> r == Success(Some(Ser(AnyValue(slot.example.value))))
    ensures slot.example.None? && slot.examples.None? ==> r == Success(None)
    ensures slot.example.None? && slot.examples.Some? && |slot.examples.value| == 0 ==>
              r == Success(Some(Ser(Null)))
    ensures slot.example.None? && slot.examples.Some? && |slot.examples.value| == 1 ==>
              r == Success(Some(Ser(ExampleObject(slot.examples.value[0].1))))
    ensures r.Failure? <==> !DefaultResolvable(slot)
    ensures r.Failure? ==> r.error == AmbiguousExamples
  {
    if slot.example.Some? then
      Success(Some(Ser(AnyValue(slot.example.value))))
    else if slot.examples.Some? then
      var entry :- SingleOrDefault(slot.examples.value);
      // `default(KeyValuePair<string, OpenApiExample>).Value` is null
      var picked := match entry case None => Null case Some(e) => ExampleObject(e.1);
      Success(Some(Ser(picked)))
    else
      Success(None)
  }

  // ---------------------------------------------------------------------------
  // Parameters and headers

  /** The record shared by `CreateTemplateParameters` and
      `CreateResponseHeaders`. Fields are initialised in source order, so a
      missing schema is reported before a null examples map, and that before
      an ambiguous default. */
  function ParameterRecord(name: Option<string>, description: Option<string>, schema: Option<Schema>,
                           required: bool, slot: ExampleSlot): (r: Outcome<TemplateParameter>)
    ensures r.Success? <==> schema.Some? && SlotResolvable(slot)
    ensures schema.None? ==> r == Failure(MissingSchema)
    ensures schema.Some? && slot.examples.None? ==> r == Failure(MissingExamples)
    ensures schema.Some? && slot.examples.Some? && !DefaultResolvable(slot) ==> r == Failure(AmbiguousExamples)
    ensures r.Success? ==>
      && r.value.name == name
      && r.value.description == description
      && r.value.parameterType == schema.value.schemaType
      && r.value.required == required
      && r.value.values == Some(ParameterValues(slot).value)
      && r.value.defaultValue == ParameterDefaultValue(slot).value
  {
    if schema.None? then Failure(MissingSchema)
    else
      var values :- ParameterValues(slot);
      var defaultValue :- ParameterDefaultValue(slot);
      Success(TemplateParameter(name, description, schema.value.schemaType, required, Some(values), defaultValue))
  }

  function TemplateParameterOf(p: Parameter): Outcome<TemplateParameter> {
    ParameterRecord(p.name, p.description, p.schema, p.required, ParameterSlot(p))
  }

  /** The parameter maps without a fault. */
  predicate ParameterMappable(p: Parameter) {
    p.schema.Some? && SlotResolvable(ParameterSlot(p))
  }

  /** `CreateTemplateParameters`: one record per parameter, in order, with
      the parameter's own name, description, schema type and required flag. */
  function TemplateParameters(ps: seq<Parameter>): (r: Outcome<seq<TemplateParameter>>)
    ensures r.Success? <==> forall i :: 0 <= i < |ps| ==> ParameterMappable(ps[i])
    ensures r.Failure? ==> r.error == TemplateParameterOf(ps[FirstFailure(TemplateParameterOf, ps)]).error
    ensures r.Success? ==> |r.value| == |ps|
    ensures r.Success? ==> forall i :: 0 <= i < |ps| ==>
      && r.value[i].name == ps[i].name
      && r.value[i].description == ps[i].description
      && r.value[i].parameterType == ps[i].schema.value.schemaType
      && r.value[i].required == ps[i].required
      && r.value[i].values == Some(ParameterValues(ParameterSlot(ps[i])).value)
      && r.value[i].defaultValue == ParameterDefaultValue(ParameterSlot(ps[i])).value
  {
    MapAllSpec(TemplateParameterOf, ps);
    MapAll(TemplateParameterOf, ps)
  }

  function ResponseHeaderOf(entry: (string, Header)): Outcome<TemplateParameter> {
    ParameterRecord(Some(entry.0), entry.1.description, entry.1.schema, entry.1.required, HeaderSlot(entry.1))
  }

  /** The header maps without a fault. */
  predicate HeaderMappable(h: Header) {
    h.schema.Some? && SlotResolvable(HeaderSlot(h))
  }

  /** `CreateResponseHeaders`: one record per header, in map order, named by
      the header's key. */
  function ResponseHeaders(headers: seq<(string, Header)>): (r: Outcome<seq<TemplateParameter>>)
    ensures r.Success? <==> forall i :: 0 <= i < |headers| ==> HeaderMappable(headers[i].1)
    ensures r.Failure? ==> r.error == ResponseHeaderOf(headers[FirstFailure(ResponseHeaderOf, headers)]).error
    ensures r.Success? ==> |r.value| == |headers|
    ensures r.Success? ==> forall i :: 0 <= i < |headers| ==>
      && r.value[i].name == Some(headers[i].0)
      && r.value[i].description == headers[i].1.description
      && r.value[i].parameterType == headers[i].1.schema.value.schemaType
      && r.value[i].required == headers[i].1.required
      && r.value[i].values == Some(ParameterValues(HeaderSlot(headers[i].1)).value)
      && r.value[i].defaultValue == ParameterDefaultValue(HeaderSlot(headers[i].1)).value
  {
    MapAllSpec(ResponseHeaderOf, headers);
    MapAll(ResponseHeaderOf, headers)
  }

  // ---------------------------------------------------------------------------
  // Representations

  /** The two content types whose bodies get form parameters; the comparison
      is exact and case-sensitive. */
  predicate IsFormContentType(contentType: string) {
    contentType == FormUrlEncoded || contentType == MultipartFormData
  }

  /** One form field: only its name, required flag and default are set. */
  function FormParameterOf(schema: Schema, field: (string, Any)): TemplateParameter {
    TemplateParameter(
      name := Some(field.0),
      description := None,
      parameterType := None,
      // required exactly when the schema's required-field list names the key
      required := field.0 in schema.required,
      values := None,
      defaultValue := Some(Ser(AnyValue(field.1))))
  }

  /** `CreateFormParameters`: no example gives an empty list; otherwise one
      field per example key, in order, required exactly when the schema lists
      the key as required. */
  function FormParameters(schema: Schema): (r: seq<TemplateParameter>)
    ensures schema.example.None? ==> r == []
    ensures schema.example.Some? ==> |r| == |schema.example.value|
    ensures schema.example.Some? ==> forall i :: 0 <= i < |r| ==>
      && r[i].name == Some(schema.example.value[i].0)
      && (r[i].required <==> schema.example.value[i].0 in schema.required)
      && r[i].defaultValue == Some(Ser(AnyValue(schema.example.value[i].1)))
      && r[i].description.None? && r[i].parameterType.None? && r[i].values.None?
  {
    match schema.example
    case None => []
    case Some(fields) => seq(|fields|, i requires 0 <= i < |fields| => FormParameterOf(schema, fields[i]))
  }

  /** The serializer's input for a default value that is itself a string,
      possibly null. */
  function TextOrNull(text: Option<Json>): Value {
    match text
    case None => Null
    case Some(t) => TextValue(t)
  }

  /** One content entry of `CreateRepresentations`. */
  function RepresentationOf(entry: (string, MediaType)): (r: Outcome<Representation>)
    ensures r.Success? <==> DefaultResolvable(MediaTypeSlot(entry.1))
    ensures r.Failure? ==> r.error == AmbiguousExamples
    ensures r.Success? ==>
      && r.value.contentType == entry.0
      && r.value.sample == Some(Ser(TextOrNull(ParameterDefaultValue(MediaTypeSlot(entry.1)).value)))
      && r.value.schemaId.None?
      && r.value.typeName == (if entry.1.schema.Some? then entry.1.schema.value.schemaType else None)
      && (r.value.formParameters.Some? <==> entry.1.schema.Some? && IsFormContentType(entry.0))
      && (r.value.formParameters.Some? ==> r.value.formParameters.value == FormParameters(entry.1.schema.value))
  {
    var media := entry.1;
    var defaultValue :- ParameterDefaultValue(MediaTypeSlot(media));
    var formParameters :=
      if media.schema.Some? && IsFormContentType(entry.0) then Some(FormParameters(media.schema.value)) else None;
    Success(Representation(
      contentType := entry.0,
      sample := Some(Ser(TextOrNull(defaultValue))),
      // no schema has been created yet
      schemaId := None,
      typeName := if media.schema.Some? then media.schema.value.schemaType else None,
      formParameters := formParameters))
  }

  /** `CreateRepresentations`: one representation per content entry, in map
      order. */
  function Representations(content: Content): (r: Outcome<seq<Representation>>)
    ensures r.Success? <==> forall i :: 0 <= i < |content| ==> DefaultResolvable(MediaTypeSlot(content[i].1))
    ensures r.Failure? ==> r.error == RepresentationOf(content[FirstFailure(RepresentationOf, content)]).error
    ensures r.Success? ==> |r.value| == |content|
    ensures r.Success? ==> forall i :: 0 <= i < |content| ==>
      && r.value[i].contentType == content[i].0
      && r.value[i].sample == Some(Ser(TextOrNull(ParameterDefaultValue(MediaTypeSlot(content[i].1)).value)))
      && r.value[i].schemaId.None?
      && r.value[i].typeName == (if content[i].1.schema.Some? then content[i].1.schema.value.schemaType else None)
      && (r.value[i].formParameters.Some? <==> content[i].1.schema.Some? && IsFormContentType(content[i].0))
      && (r.value[i].formParameters.Some? ==> r.value[i].formParameters.value == FormParameters(content[i].1.schema.value))
  {
    MapAllSpec(RepresentationOf, content);
    MapAll(RepresentationOf, content)
  }

  // ---------------------------------------------------------------------------
  // Responses and request

  /** The response record `CreateOperationResponses` builds for one status
      code: the status code and description of the response, its headers as
      template parameters and its content as representations. The headers are
      initialised first, so a header fault is reported before a
      representation fault. */
  function ResponseOf(entry: (string, Response)): (r: Outcome<TemplateResponse>)
    ensures r.Success? <==>
      && (forall i :: 0 <= i < |entry.1.headers| ==> HeaderMappable(entry.1.headers[i].1))
      && (forall i :: 0 <= i < |entry.1.content| ==> DefaultResolvable(MediaTypeSlot(entry.1.content[i].1)))
    ensures ResponseHeaders(entry.1.headers).Failure? ==> r == Failure(ResponseHeaders(entry.1.headers).error)
    ensures r.Failure? && ResponseHeaders(entry.1.headers).Success? ==>
              r == Failure(Representations(entry.1.content).error)
    ensures r.Success? ==>
      && r.value.statusCode == entry.0
      && r.value.description == entry.1.description
      && |r.value.headers| == |entry.1.headers|
      && (forall i :: 0 <= i < |entry.1.headers| ==> r.value.headers[i].name == Some(entry.1.headers[i].0))
      && ResponseHeaders(entry.1.headers).Success?
      && r.value.headers == ResponseHeaders(entry.1.headers).value
      && |r.value.representations| == |entry.1.content|
      && (forall i :: 0 <= i < |entry.1.content| ==> r.value.representations[i].contentType == entry.1.content[i].0)
      && Representations(entry.1.content).Success?
      && r.value.representations == Representations(entry.1.content).value
  {
    var headers :- ResponseHeaders(entry.1.headers);
    var representations :- Representations(entry.1.content);
    Success(TemplateResponse(entry.0, entry.1.description, headers, representations))
  }

  /** The response record for every status code builds without a fault. */
  predicate ResponsesBuildable(responses: seq<(string, Response)>) {
    forall i :: 0 <= i < |responses| ==> ResponseOf(responses[i]).Success?
  }

  /** `CreateOperationResponses` as written: it builds the record for every
      status code, so a fault in any of them is raised, but never adds a
      record to the list it returns. */
  function OperationResponses(responses: seq<(string, Response)>): (r: Outcome<seq<TemplateResponse>>)
    ensures r.Success? <==> ResponsesBuildable(responses)
    ensures r.Success? ==> r.value == []
  {
    MapAllSpec(ResponseOf, responses);
    var built :- MapAll(ResponseOf, responses);
    Success([])
  }

  /** The filter condition that keeps the parameters declared at one
      location. */
  function InLocation(location: Location): Parameter -> bool {
    (p: Parameter) => p.location == Some(location)
  }

  /** The body's representations build without a fault. */
  predicate BodyRepresentable(body: RequestBody) {
    forall i :: 0 <= i < |body.content| ==> DefaultResolvable(MediaTypeSlot(body.content[i].1))
  }

  /** `CreateOperationRequest`: the query and header subsets of the
      parameters, and the body's description and representations, both null
      without a body. */
  function OperationRequest(op: Operation): (r: Outcome<Request>)
    ensures r.Success? <==>
      && (forall i :: 0 <= i < |op.parameters| && op.parameters[i].location == Some(Location.Query) ==>
            ParameterMappable(op.parameters[i]))
      && (forall i :: 0 <= i < |op.parameters| && op.parameters[i].location == Some(Location.Header) ==>
            ParameterMappable(op.parameters[i]))
      && (op.requestBody.Some? ==> BodyRepresentable(op.requestBody.value))
    ensures r.Success? ==>
      && (r.value.description.None? && r.value.representations.None? <== op.requestBody.None?)
      && (op.requestBody.Some? ==> r.value.description == op.requestBody.value.description)
      && (op.requestBody.Some? ==>
            && Representations(op.requestBody.value.content).Success?
            && r.value.representations == Some(Representations(op.requestBody.value.content).value))
      && TemplateParameters(Filter(InLocation(Location.Query), op.parameters)).Success?
      && r.value.queryParameters == TemplateParameters(Filter(InLocation(Location.Query), op.parameters)).value
      && TemplateParameters(Filter(InLocation(Location.Header), op.parameters)).Success?
      && r.value.headers == TemplateParameters(Filter(InLocation(Location.Header), op.parameters)).value
  {
    var description := if op.requestBody.Some? then op.requestBody.value.description else None;
    var queryParameters :- TemplateParameters(Filter(InLocation(Location.Query), op.parameters));
    var headers :- TemplateParameters(Filter(InLocation(Location.Header), op.parameters));
    var representations :-
      if op.requestBody.Some? then
        var reps :- Representations(op.requestBody.value.content);
        Success(Some(reps))
      else Success(None);
    Success(Request(description, queryParameters, headers, representations))
  }

  // ---------------------------------------------------------------------------
  // Operations

  /** The template for one declared method on one path. */
  function OperationTemplateOf(path: string, verb: Method, op: Operation): (r: Outcome<OperationTemplate>)
    ensures r.Success? <==>
      && (forall i :: 0 <= i < |op.parameters| ==> ParameterMappable(op.parameters[i]))
      && ResponsesBuildable(op.responses)
      && (op.requestBody.Some? ==> BodyRepresentable(op.requestBody.value))
    ensures TemplateParameters(op.parameters).Failure? ==> r == Failure(TemplateParameters(op.parameters).error)
    ensures r.Success? ==>
      && r.value.name == op.operationId
      && r.value.resourceType == OperationResourceType
      && r.value.apiVersion == OperationApiVersion
      && r.value.properties.httpMethod == MethodName(verb)
      && r.value.properties.urlTemplate == path
      && r.value.properties.description == op.description
      && r.value.properties.displayName == op.summary
      && TemplateParameters(op.parameters).Success?
      && r.value.properties.templateParameters == TemplateParameters(op.parameters).value
      && r.value.properties.responses == []
      && OperationRequest(op).Success?
      && r.value.properties.request == OperationRequest(op).value
      && r.value.properties.policies.None?
  {
    var templateParameters :- TemplateParameters(op.parameters);
    var responses :- OperationResponses(op.responses);
    var request :- OperationRequest(op);
    Success(OperationTemplate(
      name := op.operationId,
      resourceType := OperationResourceType,
      apiVersion := OperationApiVersion,
      properties := Properties(
        httpMethod := MethodName(verb),
        urlTemplate := path,
        description := op.description,
        displayName := op.summary,
        templateParameters := templateParameters,
        responses := responses,
        request := request,
        // policies are not generated yet
        policies := None)))
  }

  /** The inner loop of `CreateOperationTemplates`: the templates of one path,
      in the order its methods are declared. */
  function PathTemplates(path: string, item: PathItem): Outcome<seq<OperationTemplate>> {
    MapAll((entry: (Method, Operation)) => OperationTemplateOf(path, entry.0, entry.1), item.operations)
  }

  /** The outer loop of `CreateOperationTemplates`: the templates of every
      path, in path order. */
  function PathsTemplates(paths: seq<(string, PathItem)>): Outcome<seq<OperationTemplate>> {
    if |paths| == 0 then Success([])
    else
      var first :- PathTemplates(paths[0].0, paths[0].1);
      var rest :- PathsTemplates(paths[1..]);
      Success(first + rest)
  }

  /** The nested loops succeed exactly when the template of every declared
      method of every path builds. */
  lemma {:induction false} PathsTemplatesSucceed(paths: seq<(string, PathItem)>)
    ensures PathsTemplates(paths).Success? <==>
              forall j, k :: 0 <= j < |paths| && 0 <= k < |paths[j].1.operations| ==>
                OperationTemplateOf(paths[j].0, paths[j].1.operations[k].0, paths[j].1.operations[k].1).Success?
  {
    if |paths| > 0 {
      var path, item := paths[0].0, paths[0].1;
      MapAllSpec((entry: (Method, Operation)) => OperationTemplateOf(path, entry.0, entry.1), item.operations);
      PathsTemplatesSucceed(paths[1..]);
      assert forall j :: 1 <= j < |paths| ==> paths[j] == paths[1..][j - 1];
    }
  }

  /** `CreateOperationTemplates`: succeeds exactly when the template of every
      declared method of every path builds. How many templates it yields, in
      which order and with which fields is stated by
      `OperationOrder.OperationTemplatesOnePerDeclaredMethod`. */
  function OperationTemplates(doc: Document): (r: Outcome<seq<OperationTemplate>>)
    ensures r.Success? <==>
              forall j, k :: 0 <= j < |doc.paths| && 0 <= k < |doc.paths[j].1.operations| ==>
                OperationTemplateOf(doc.paths[j].0, doc.paths[j].1.operations[k].0,
                                    doc.paths[j].1.operations[k].1).Success?
  {
    PathsTemplatesSucceed(doc.paths);
    PathsTemplates(doc.paths)
  }
}

=== FILE: Seqs.dfy ===
/** Order-preserving walks over sequences: the `foreach` loops of the C#
    source, which add one record per element and stop at the first exception,
    and the LINQ `Where` filter. */
module Seqs {
  import opened Wrappers

  /** Applies `f` to every element in order and collects the results; the first
      failure aborts the walk and becomes the result, as an exception thrown
      inside a `foreach` does. `MapAllSpec` states what the walk computes. */
  function MapAll<A, B, E>(f: A -> Result<B, E>, xs: seq<A>): (r: Result<seq<B>, E>)
    ensures r.Success? ==> |r.value| == |xs|
  {
    if |xs| == 0 then Success([])
    else
      var head :- f(xs[0]);
      var tail :- MapAll(f, xs[1..]);
      Success([head] + tail)
  }

  /** The walk succeeds exactly when `f` succeeds on every element; it then
      holds `f`'s result for each element at that element's position, and
      otherwise fails with `f`'s fault on the first element where `f` fails. */
  lemma {:induction false} MapAllSpec<A, B, E>(f: A -> Result<B, E>, xs: seq<A>)
    ensures MapAll(f, xs).Success? <==> forall i :: 0 <= i < |xs| ==> f(xs[i]).Success?
    ensures MapAll(f, xs).Success? ==>
              forall i {:trigger MapAll(f, xs).value[i]} :: 0 <= i < |xs| ==> MapAll(f, xs).value[i] == f(xs[i]).value
    ensures MapAll(f, xs).Failure? ==>
              FirstFailure(f, xs) < |xs| && f(xs[FirstFailure(f, xs)]) == Failure(MapAll(f, xs).error)
  {
    if |xs| > 0 {
      MapAllSpec(f, xs[1..]);
      assert forall i :: 1 <= i < |xs| ==> xs[i] == xs[1..][i - 1];
    }
  }

  /** The index of the first element on which `f` fails, or `|xs|` when there
      is none. */
  function FirstFailure<A, B, E>(f: A -> Result<B, E>, xs: seq<A>): (k: nat)
    ensures k <= |xs|
    ensures forall j :: 0 <= j < k ==> f(xs[j]).Success?
    ensures k < |xs| ==> f(xs[k]).Failure?
  {
    if |xs| == 0 then 0
    else if f(xs[0]).Failure? then 0
    else
      assert forall j :: 1 <= j < |xs| ==> xs[j] == xs[1..][j - 1];
      1 + FirstFailure(f, xs[1..])
  }

  /** LINQ `Where`: the elements satisfying `p`, in their original order. */
  function Filter<A(==)>(p: A -> bool, xs: seq<A>): (r: seq<A>)
    ensures |r| <= |xs|
    ensures forall i :: 0 <= i < |r| ==> r[i] in xs && p(r[i])
    ensures forall i :: 0 <= i < |xs| && p(xs[i]) ==> xs[i] in r
  {
    if |xs| == 0 then []
    else if p(xs[0]) then [xs[0]] + Filter(p, xs[1..])
    else Filter(p, xs[1..])
  }

  /** The entries of `ys` whose partner at the same index in `xs` satisfies `p`:
      the outputs that a `Where` on the inputs would have kept. */
  function Select<A, B>(p: A -> bool, xs: seq<A>, ys: seq<B>): seq<B>
    requires |xs| == |ys|
  {
    if |xs| == 0 then []
    else if p(xs[0]) then [ys[0]] + Select(p, xs[1..], ys[1..])
    else Select(p, xs[1..], ys[1..])
  }

  /** `a` is `b` with some entries removed and the rest kept in order. */
  predicate IsSubsequence<A(==)>(a: seq<A>, b: seq<A>)
    decreases |b|
  {
    if |a| == 0 then true
    else if |b| == 0 then false
    else if a[0] == b[0] then IsSubsequence(a[1..], b[1..])
    else IsSubsequence(a, b[1..])
  }

  /** Mapping then filtering by the inputs is filtering then mapping: walking
      only the kept inputs yields exactly the outputs at their positions. */
  lemma {:induction false} MapAllFilter<A, B, E>(f: A -> Result<B, E>, p: A -> bool, xs: seq<A>)
    requires MapAll(f, xs).Success?
    ensures MapAll(f, Filter(p, xs)) == Success(Select(p, xs, MapAll(f, xs).value))
  {
    if |xs| > 0 {
      MapAllFilter(f, p, xs[1..]);
    }
  }

  /** A selection is a subsequence of what it selects from. */
  lemma {:induction false} SelectIsSubsequence<A, B>(p: A -> bool, xs: seq<A>, ys: seq<B>)
    requires |xs| == |ys|
    ensures IsSubsequence(Select(p, xs, ys), ys)
  {
    if |xs| > 0 {
      SelectIsSubsequence(p, xs[1..], ys[1..]);
      var s := Select(p, xs[1..], ys[1..]);
      if p(xs[0]) {
        assert ([ys[0]] + s)[1..] == s;
      } else {
        SkipHead(s, ys);
      }
    }
  }

  /** Dropping the head of the longer sequence keeps a subsequence relation. */
  lemma {:induction false} SkipHead<A>(a: seq<A>, b: seq<A>)
    requires |b| > 0 && IsSubsequence(a, b[1..])
    ensures IsSubsequence(a, b)
    decreases |b|, 0
  {
    if |a| > 0 && a[0] == b[0] {
      // The head matches: the rest of `a` is then a subsequence of b[1..] too.
      TailOfSubsequence(a, b[1..]);
    }
  }

  /** Removing the head of a subsequence keeps it a subsequence. */
  lemma {:induction false} TailOfSubsequence<A>(a: seq<A>, b: seq<A>)
    requires |a| > 0 && IsSubsequence(a, b)
    ensures IsSubsequence(a[1..], b)
    decreases |b|, 1
  {
    assert |b| > 0;
    if a[0] == b[0] {
      SkipHead(a[1..], b);
    } else {
      TailOfSubsequence(a, b[1..]);
      SkipHead(a[1..], b);
    }
  }

  /** Two selections by disjoint conditions together take at most every entry. */
  lemma {:induction false} SelectDisjointLength<A, B>(p: A -> bool, q: A -> bool, xs: seq<A>, ys: seq<B>)
    requires |xs| == |ys|
    requires forall x :: !(p(x) && q(x))
    ensures |Select(p, xs, ys)| + |Select(q, xs, ys)| <= |ys|
  {
    if |xs| > 0 {
      SelectDisjointLength(p, q, xs[1..], ys[1..]);
    }
  }

  /** Two walks agree when their functions agree element by element. */
  lemma {:induction false} MapAllPointwise<A, A', B, E>(f: A -> Result<B, E>, xs: seq<A>,
                                                       g: A' -> Result<B, E>, ys: seq<A'>)
    requires |xs| == |ys|
    requires forall i :: 0 <= i < |xs| ==> f(xs[i]) == g(ys[i])
    ensures MapAll(f, xs) == MapAll(g, ys)
  {
    if |xs| > 0 {
      MapAllPointwise(f, xs[1..], g, ys[1..]);
    }
  }

  /** One step of a walk over a non-empty sequence. */
  lemma MapAllStep<A, B, E>(f: A -> Result<B, E>, xs: seq<A>)
    requires |xs| > 0
    ensures f(xs[0]).Failure? ==> MapAll(f, xs) == Failure(f(xs[0]).error)
    ensures f(xs[0]).Success? && MapAll(f, xs[1..]).Failure? ==> MapAll(f, xs) == Failure(MapAll(f, xs[1..]).error)
    ensures f(xs[0]).Success? && MapAll(f, xs[1..]).Success? ==>
              MapAll(f, xs) == Success([f(xs[0]).value] + MapAll(f, xs[1..]).value)
  {
  }

  /** A walk that fails on a prefix fails the same way on any extension. */
  lemma {:induction false} MapAllAppendFailure<A, B, E>(f: A -> Result<B, E>, xs: seq<A>, ys: seq<A>)
    requires MapAll(f, xs).Failure?
    ensures MapAll(f, xs + ys) == MapAll(f, xs)
  {
    var zs := xs + ys;
    assert zs[0] == xs[0];
    assert zs[1..] == xs[1..] + ys;
    MapAllStep(f, xs);
    MapAllStep(f, zs);
    if f(xs[0]).Success? {
      MapAllAppendFailure(f, xs[1..], ys);
    }
  }

  /** After a prefix that walks successfully, the walk of an extension is the
      walk of the rest, prefixed by the prefix's results. */
  lemma {:induction false} MapAllAppendSuccess<A, B, E>(f: A -> Result<B, E>, xs: seq<A>, ys: seq<A>)
    requires MapAll(f, xs).Success?
    ensures MapAll(f, ys).Failure? ==> MapAll(f, xs + ys) == MapAll(f, ys)
    ensures MapAll(f, ys).Success? ==> MapAll(f, xs + ys) == Success(MapAll(f, xs).value + MapAll(f, ys).value)
  {
    if |xs| == 0 {
      assert xs + ys == ys;
      assert MapAll(f, xs).value == [];
      if MapAll(f, ys).Success? {
        assert [] + MapAll(f, ys).value == MapAll(f, ys).value;
      }
    } else {
      var zs := xs + ys;
      var xt := xs[1..];
      assert zs[0] == xs[0];
      assert zs[1..] == xt + ys;
      MapAllStep(f, xs);
      MapAllStep(f, zs);
      MapAllAppendSuccess(f, xt, ys);
      if MapAll(f, ys).Success? {
        var h, u, v := f(xs[0]).value, MapAll(f, xt).value, MapAll(f, ys).value;
        assert [h] + (u + v) == ([h] + u) + v;
      }
    }
  }
}

=== FILE: Templates.dfy ===
/** The deployment-template records the creator builds, with the fields it
    assigns, and the serialized text it stores in them.

    `JsonConvert.SerializeObject` is not modelled: serialized text is kept
    symbolic as `Ser(v)`, "the serialization of v", so nothing here depends on
    the JSON text produced. As a constructor, `Ser` distinguishes texts the
    real serializer may produce identically (an example value and an
    `OpenApiExample` with the same keys, say); no property proved here relies
    on that: each one holds as well for an arbitrary function `Ser`. */
module Templates {
  import opened Wrappers
  import opened OpenApi

  /** What the creator hands to the serializer: a C# null, an example value, a
      whole `OpenApiExample` object, or a string that is itself serialized text
      (possibly null). */
  datatype Value =
    | Null
    | AnyValue(any: Any)
    | ExampleObject(example: Example)
    | TextValue(text: Json)

  /** Serialized text: the serializer's output for `of`. */
  datatype Json = Ser(of: Value)

  /** The exceptions the creator can throw on its input. */
  datatype Fault =
    | MissingSchema      // a parameter or header without a schema (NullReferenceException)
    | MissingExamples    // enumerating a null `Examples` map (NullReferenceException)
    | AmbiguousExamples  // `SingleOrDefault` over more than one named example (InvalidOperationException)

  type Outcome<T> = Result<T, Fault>

  const OperationResourceType: string := "Microsoft.ApiManagement/service/apis/operations"
  const OperationApiVersion: string := "2018-06-01-preview"
  const FormUrlEncoded: string := "application/x-www-form-urlencoded"
  const MultipartFormData: string := "multipart/form-data"

  /** `OperationTemplateParameter`; unassigned fields stay null. */
  datatype TemplateParameter = TemplateParameter(
    name: Option<string>,
    description: Option<string>,
    parameterType: Option<string>,
    required: bool,
    values: Option<seq<Json>>,
    defaultValue: Option<Json>)

  /** `OperationTemplateRepresentation`. */
  datatype Representation = Representation(
    contentType: string,
    sample: Option<Json>,
    schemaId: Option<string>,
    typeName: Option<string>,
    formParameters: Option<seq<TemplateParameter>>)

  /** `OperationTemplateRequest`. */
  datatype Request = Request(
    description: Option<string>,
    queryParameters: seq<TemplateParameter>,
    headers: seq<TemplateParameter>,
    representations: Option<seq<Representation>>)

  /** `OperationsTemplateResponse`. */
  datatype TemplateResponse = TemplateResponse(
    statusCode: string,
    description: Option<string>,
    headers: seq<TemplateParameter>,
    representations: seq<Representation>)

  /** `OperationTemplateProperties`. The policy type is not part of this
      model; the creator only ever stores null there. */
  datatype Properties = Properties(
    httpMethod: string,
    urlTemplate: string,
    description: Option<string>,
    displayName: Option<string>,
    templateParameters: seq<TemplateParameter>,
    responses: seq<TemplateResponse>,
    request: Request,
    policies: Option<string>)

  /** `OperationTemplate`. */
  datatype OperationTemplate = OperationTemplate(
    name: Option<string>,
    resourceType: string,
    apiVersion: string,
    properties: Properties)
}

=== FILE: Wrappers.dfy ===
/** Optional values (C# null) and results that carry either a value or the fault
    a C# exception would have raised. Both are failure-compatible, so `:-` works
    on `Result`. */
module Wrappers {

  /** A nullable reference: `None` stands for C#'s `null`. */
  datatype Option<+T> = None | Some(value: T)

  /** Either the value an operation returns or the fault it throws. */
  datatype Result<+R, +E> = Success(value: R) | Failure(error: E) {

    predicate IsFailure() {
      Failure?
    }

    function PropagateFailure<U>(): Result<U, E>
      requires Failure?
    {
      Failure(error)
    }

    function Extract(): R
      requires Success?
    {
      value
    }
  }
}
